=== FILE: README.md ===
# CQRS registry and dispatcher, modelled in Dafny

This project models `src/cqrs.js`. That file is a small in-process registry for the Command/Event split of CQRS, made of three parts:

- **Definition registries** (`defineCommand`, `defineEvent`): two independent maps from a name to a message definition. A definition is either a user function or a factory synthesized from a list of field names.
- **Handler-binding rules** (`iHandleCommand(s)`, `iApplyEvent(s)`, `iSubscribeTo`): these check an object's handlers against the registry. They record, on the object, the commands it handles and the events it applies or subscribes to.
- **Message dispatchers** (`createMessageDispatcher`, `getMessageDispatcher`, `MessageDispatcher.scan`, `sendCommand`): named routers. Each maps a command name to one handler and routes an instance by its `constructor.name`.

All state is immutable, and every operation is a pure function:

- An operation that throws before changing anything returns `Result` (`Success(value)` or `Failure(error)`).
- An operation that can throw after it has already changed state returns `Completion` (`Normal(state)` or `Abrupt(state, error)`). Those are `iHandleCommand(s)`, `iApplyEvent(s)` and `scan`.

Modules:

- `Base` (base.dfy) holds the error kinds, `Result`/`Completion`, and the JavaScript values the registry inspects. A function is `Fn(name, isGenerator, length)`. A truthy property is `Callable(fn)` or `NotCallable(length)`. A missing or falsy property is simply absent from the map.
- `Definitions` (definitions.dfy) holds the two namespaces and the field-list factory with its instances.
- `Binding` (binding.dfy) holds the handler-bearing object and its three metadata lists, and the binding rules.
- `Dispatch` (dispatch.dfy) holds the dispatchers, `scan` and `sendCommand`.
- `Cqrs` (cqrs.dfy) holds the whole registry state, dispatcher creation on it, and an end-to-end scenario.

Behaviours of `src/cqrs.js` a reader might not expect, all modelled:

- An event factory built from a field list is an anonymous function. Its instances therefore have `constructor.name` equal to `""`, not the event's name. A command factory is named after the command.
- `scan` treats a name as bound only when its entry is truthy. If the scanned object has no method for a listed command, `undefined` is stored. That name stays unbound and can be bound by a later scan.
- `iApplyEvent` accepts any function, including a generator function, because its check is `typeof === 'function'`.
- `sendCommand` on a truthy entry that is not a function throws a `TypeError`. The model reports this as `NotAFunction`.
- `sendCommand` calls the bound method as a plain function. Inside the handler, `this` is not the scanned object, so `Invocation` records the handler and the command but no receiver.
- A field list that repeats a name gives that field the argument at its last position. This is how sloppy-mode JavaScript binds duplicate parameter names.
- The synthesized body starts with `var self=this`. A field named `self` therefore holds the instance itself, not its argument.
- A field named `__proto__` is written through the prototype setter. A primitive argument is ignored there, so the instance gets no own field of that name.
- The handler checks have two separate throws: one for a missing handler and one for a wrong-shaped handler. They are modelled as `MissingHandler` and `BadHandler`.

## Model

| member | source | states |
|---|---|---|
| `Definitions.Define` | src/cqrs.js:11-37 | Defining a name already in the namespace fails with `Duplicate`. Otherwise exactly that name is added and the other entries are unchanged. A field list of n names gives a definition of arity n. A function argument is stored as it is. |
| `Definitions.DefineCommand` | src/cqrs.js:11-37 | Fails with `Duplicate` exactly when the name is already a command. On success the event namespace is unchanged, and the command namespace is exactly what `Definitions.Define` gives: existing commands keep their definitions and the new one is stored as that member states. |
| `Definitions.DefineEvent` | src/cqrs.js:39-63 | Fails with `Duplicate` exactly when the name is already an event. On success the command namespace is unchanged, and the event namespace is exactly what `Definitions.Define` gives: existing events keep their definitions and the new one is stored as that member states. |
| `Definitions.NamespacesIndependent` | src/cqrs.js:8-9 | A name just defined as a command can still be defined as an event, and the command stays defined. |
| `Definitions.RedefinitionFails` | src/cqrs.js:13-21 | After a successful definition, a second definition under the same key in the same namespace fails with `Duplicate`. This holds whatever shape either call uses. |
| `Definitions.Assign` | src/cqrs.js:30-36 | The instance built by the synthesized body has exactly the listed field names as own fields, except `__proto__`, which leaves none. |
| `Definitions.New` | src/cqrs.js:33-36 | `new F(args)` is tagged with the factory's function name and has exactly the factory's fields other than `__proto__`. |
| `Definitions.AssignLast` | src/cqrs.js:30-33 | Each field other than `__proto__` holds the argument at the field's last position in the list, or `undefined` when fewer arguments were passed. A field named `self` holds the instance itself. |
| `Definitions.AssignPositional` | src/cqrs.js:30-33 | When the field names are distinct, field i holds argument i. The exceptions are `self`, which holds the instance itself, and `__proto__`, which leaves no own field. |
| `Definitions.FieldListFactory` | src/cqrs.js:23-36 | Defining `[f1..fn]` under a fresh name succeeds and gives a factory of arity n. Applied to n arguments, it returns an instance with `fi = ai` and no other fields. The exceptions are `self`, which holds the instance, and `__proto__`, which is not an own field. The instance is tagged with the command's name, or with `""` for an event. |
| `Binding.IHandleCommand` | src/cqrs.js:112-122 | The call throws `Unknown` for an undefined command, `MissingHandler` for an absent handler and `BadHandler` for a non-generator, in that order. It succeeds exactly when none applies. The handled list exists afterwards even when the call throws, and a throw adds nothing to it. On success the name is added, the list stays duplicate-free, and nothing else on the object changes. |
| `Binding.IHandleCommandIdempotent` | src/cqrs.js:121 | Calling `iHandleCommand` twice gives the same outcome and object as calling it once. |
| `Binding.IHandleCommands` | src/cqrs.js:124-131 | The call succeeds exactly when every name is accepted with the object's own method. Otherwise it throws the error of the first refused name. The names before that one stay recorded and no later name is. An empty list changes nothing. Well-formedness is preserved. |
| `Binding.IHandleCommandsOrder` | src/cqrs.js:121-131 | The accepted names are pushed in call order, each only if not yet listed. On a duplicate-free list, the handled list afterwards is the first-occurrence de-duplication of the old list followed by the accepted prefix of the names. That is the order in which `scan` later binds them. |
| `Binding.IApplyEvent` | src/cqrs.js:133-146 | The call throws `Unknown` for an undefined event, `Exclusivity` for an event the object subscribes to, `MissingHandler` for an absent handler and `BadHandler` for a non-function, in that order. The applied list exists afterwards even on a throw. On success the event is added without duplicates, and applied and subscribed events stay disjoint. |
| `Binding.IApplyEventIdempotent` | src/cqrs.js:145 | Calling `iApplyEvent` twice gives the same outcome and object as calling it once. |
| `Binding.IApplyEvents` | src/cqrs.js:148-155 | The call is fail-fast and non-atomic. It succeeds exactly when every name is accepted. Otherwise it throws the first refused name's error. The applied list then holds the old names plus exactly those before the refused one. |
| `Binding.SubscribeEach` | src/cqrs.js:162-179 | The loop succeeds exactly when every name is either already collected or passes all four checks. Every collected name passed them. |
| `Binding.SubscribeEachFailure` | src/cqrs.js:163-176 | A throw of the loop is the refusal of the first name that was neither collected already nor passed the checks. |
| `Binding.SubscribeEachDedups` | src/cqrs.js:162-178 | Started from the de-duplication of a prefix, the loop yields the de-duplication of the whole list: the distinct names in first-occurrence order. |
| `Binding.DedupFirstOccurrenceOrder` | src/cqrs.js:163-178 | The de-duplicated list of names, which `iSubscribeTo` stores, orders names by their first occurrence in the input. |
| `Binding.ISubscribeTo` | src/cqrs.js:157-181 | The call succeeds exactly when every name passes the checks: defined, not applied by the object, handler present, handler `length` equal to the event's `length`. On success it replaces the subscribed list with the de-duplicated names and keeps the object well-formed. On failure it throws the refusal of the first refused name and changes nothing. |
| `Binding.ISubscribeToIdempotent` | src/cqrs.js:181 | Subscribing again with the same names leaves the object as the first subscription left it. |
| `Binding.ApplyExcludesSubscribe` | src/cqrs.js:170 | After `iApplyEvent(e)` succeeds, `iSubscribeTo(e)` fails with `Exclusivity`. |
| `Binding.SubscribeExcludesApply` | src/cqrs.js:139-140 | After a successful `iSubscribeTo` that lists `e`, `iApplyEvent(e)` throws `Exclusivity`. |
| `Dispatch.IndexOf` | src/cqrs.js:95-97 | Returns the first position whose dispatcher has the name, or nothing exactly when no dispatcher has it. |
| `Dispatch.CreateMessageDispatcher` | src/cqrs.js:94-102 | Fails with `DuplicateDispatcher` exactly when the name is taken. Otherwise it appends a dispatcher with that name and no handlers, keeps the existing list as a prefix, and keeps names pairwise distinct. |
| `Dispatch.GetMessageDispatcher` | src/cqrs.js:104-110 | Fails with `NotFound` exactly when no dispatcher has the name. Otherwise it returns a dispatcher of the list with that name, which is the only one when names are distinct. |
| `Dispatch.CreateThenGet` | src/cqrs.js:94-110 | A dispatcher just created is found by its name, with an empty handler map. |
| `Dispatch.CreateTwiceFails` | src/cqrs.js:95-96 | Creating a second dispatcher with the same name fails with `DuplicateDispatcher`. |
| `Dispatch.BindAll` | src/cqrs.js:74-79 | The loop of `scan` only throws `DuplicateHandler`, and it never removes a binding. |
| `Dispatch.BindAllFrom` | src/cqrs.js:72-82 | The loop binds names in order up to the first name already bound by the dispatcher or by an earlier name, and throws there. What it bound before stays bound. Without such a name it binds every listed name that has a method. |
| `Dispatch.Scan` | src/cqrs.js:72-82 | Scanning is a no-op when the object has no handled list. Otherwise it succeeds exactly when no name is already bound at its turn. The resulting handler map is the reference binding of the names up to that point. The dispatcher's name never changes. |
| `Dispatch.ScanBindsHandledCommands` | src/cqrs.js:74-79 | After a successful scan, each handled command with a method is bound to that method. Every other entry is unchanged. No handled command was bound before the scan. |
| `Dispatch.SecondScanOfSameCommandFails` | src/cqrs.js:76 | After one object's scan binds command n, scanning a second object that also lists n throws `DuplicateHandler`. |
| `Dispatch.SendCommand` | src/cqrs.js:84-89 | Nothing happens and nothing is thrown exactly when the instance's type name is unbound. A bound function is invoked once with the instance. A bound non-function throws. |
| `Dispatch.ScanThenSend` | src/cqrs.js:78-87 | After a successful scan, sending an instance of a command the object handles invokes the object's own method with that instance. |
| `Dispatch.ScanNamed` | src/cqrs.js:104-106 | `getMessageDispatcher(name).scan(o)` replaces that dispatcher, and only it, with the result of `Scan`, whether the scan completes or throws. It completes exactly when `Scan` does, and otherwise throws `DuplicateHandler`. Every dispatcher name is kept, so names stay distinct. An unknown name throws `NotFound` and changes nothing. |
| `Cqrs.CreateDispatcher` | src/cqrs.js:94-102 | On the whole state, creation fails with `DuplicateDispatcher` exactly when the name can already be looked up. On success the dispatcher list is the one `Dispatch.CreateMessageDispatcher` gives, so existing dispatchers are kept, the new dispatcher is found by its name, the catalog is unchanged and the state invariant holds. |
| `Cqrs.EndToEnd` | src/cqrs.js:84-89 | Define event `Created(id)` and command `Create(id)`, handle `Create` with a generator, scan the object into dispatcher `d`, and send `new Create(7)`, all from the initial state. The object's method is invoked once with an instance whose `id` is 7. |

## Left out

- The export wrapper that puts a single instance on `module.exports` or on the global object (src/cqrs.js:185-193) is host plumbing. The model has an explicit `State` value instead.
- The `console.log` in `iSubscribeTo` is output only.
- The texts of the thrown messages are not modelled; each throw is an error kind instead. One of those messages reads `_event.lenth` and so always prints `undefined` for the expected count.
- The runtime code generation by `new Function` is not modelled. Only what it produces is: a constructor over the field list.
- Definitions.Define: for the field-list shape it assumes that the message name and every field name are plain JavaScript identifiers that are not reserved words. The source splices these texts into generated code. Any other text may fail to compile: `create-user`, or a command named `delete`, throws a `SyntaxError` after the duplicate check and stores nothing. It may also compile into something else. The field `'a,b'` gives `function X(a,b)` with `length` 2 and no own field, since `self.a,b=a,b` only reads `self.a`. The event name `'a.b'` assigns to `this.events.a.b`, which throws a `TypeError` when there is no event `a` and otherwise sets a property on that event instead of storing `a.b`. The model reports `Success` with the key, arity and fields as given. Telling these cases apart needs the JavaScript grammar, which is not modelled.
- Definitions.DefineCommand inherits that gap from `Definitions.Define`.
- Definitions.DefineEvent inherits that gap from `Definitions.Define`.
- Definitions.FieldListFactory inherits that gap too: its success claim assumes the name and fields compile. Like `Definitions.New`, its claim about the instance's tag also assumes no field is named `constructor`.
- Arguments that are objects or `null` are not modelled: arguments are primitives (`Undefined` or `Data`). With an object or `null` argument, a `__proto__` field would change the instance's prototype, and with it the `constructor.name` that routes it.
- Calling a synthesized factory without `new` is not modelled, because `this` is then the call's receiver and the fields are written into it. A detached call writes them into the global object. A call through the namespace, `cqrs.commands.X(...)`, writes them into the `commands` (or `events`) map itself, after which those field names read as defined messages. `Definitions.New` models only `new F(...)`.
- What a user-supplied constructor or factory function builds is not modelled, because its body is foreign code. `Definitions.New` is defined only for synthesized factories.
- Dispatch.Scan: `Completion.state` is the dispatcher after the call, not the value `scan` returns. The source returns the dispatcher on the normal path but `undefined` on the early exit for an object without a handled list, so a chained `d.scan(a).scan(b)` throws a `TypeError` there. Return values and chaining are not modelled.
- Running handlers is not modelled. `sendCommand` returns the `Invocation` it would make. Driving a generator is the application's job.
- Names that coincide with properties inherited from `Object.prototype` are not modelled. For example, `commands['toString']` is truthy on a fresh `{}`, so in JavaScript such a name reads as already defined or bound.
- Definitions.New: a field named `constructor` is not modelled. It would overwrite the instance's `constructor`, so `typeName` would no longer be the factory's name and routing would change.
- The dispatcher's unused `_eventHandlers` map is left out, because no operation reads or writes it.
- Object metadata lists are not modelled as shared arrays. The source never aliases them between objects.

=== FILE: base.dfy ===
/** Shared vocabulary of the CQRS registry model: the error taxonomy, the two
    ways an operation can end, the JavaScript values the registry inspects,
    and a few facts about name lists. */
module Base {

  /** One kind per distinct `throw` of the registry. */
  datatype Error =
    | Duplicate            // a command/event name already defined in its namespace
    | Unknown              // a command/event name that is not defined
    | MissingHandler       // the handler argument or method is absent (falsy)
    | BadHandler           // the handler is present but has the wrong shape
    | Exclusivity          // an event both applied and subscribed by one object
    | ArityMismatch        // handler length differs from the event's length
    | DuplicateDispatcher  // a dispatcher of that name already exists
    | NotFound             // no dispatcher of that name
    | DuplicateHandler     // a command name already bound in a dispatcher
    | NotAFunction         // the bound handler is truthy but not a function

  /** Outcome of an operation that either succeeds with a value or throws
      before changing anything. */
  datatype Result<+T> = Success(value: T) | Failure(error: Error)

  /** Outcome of an operation that may throw after it has already changed
      state: the state is observable in both cases. */
  datatype Completion<+S> = Normal(state: S) | Abrupt(state: S, error: Error)

  datatype Option<+T> = None | Some(value: T)

  /** A JavaScript function value, reduced to what the registry reads of it:
      its `name`, whether its constructor is `GeneratorFunction`, and its
      declared parameter count `length`. */
  datatype Fn = Fn(name: string, isGenerator: bool, length: nat)

  /** A truthy property value. A missing or falsy property is represented by
      its absence. Non-function values may still carry a `length` (strings
      and arrays do, numbers and plain objects do not). */
  datatype Property = Callable(fn: Fn) | NotCallable(len: Option<nat>)

  /** The value of `p.length` as JavaScript reads it; `None` is `undefined`. */
  function LengthOf(p: Property): Option<nat>
  {
    match p
    case Callable(f) => Some(f.length)
    case NotCallable(l) => l
  }

  /** `typeof p === 'function' && p.constructor.name === 'GeneratorFunction'` */
  predicate IsGeneratorFunction(p: Property)
  {
    p.Callable? && p.fn.isGenerator
  }

  /** A list `undefined`-or-array read with `x || []`. */
  function OrEmpty(o: Option<seq<string>>): seq<string>
  {
    match o
    case None => []
    case Some(s) => s
  }

  /** No name occurs twice. */
  predicate NoDup<T(==)>(s: seq<T>)
  {
    forall i, j :: 0 <= i < j < |s| ==> s[i] != s[j]
  }

  /** `if (s.indexOf(x) === -1) s.push(x)` */
  function AppendIfAbsent(s: seq<string>, x: string): (r: seq<string>)
    ensures x in r
    ensures forall y :: y in r <==> y in s || y == x
    ensures s <= r && |r| <= |s| + 1
    ensures NoDup(s) ==> NoDup(r)
    ensures x in s ==> r == s
  {
    if x in s then s else s + [x]
  }
}

=== FILE: binding.dfy ===
/** The handler-binding rules: `iHandleCommand(s)`, `iApplyEvent(s)` and
    `iSubscribeTo`, which validate an object's handlers against the catalog
    and record on the object which names it handles, applies or subscribes to. */
module Binding {
  import opened Base
  import opened Definitions

  /** A handler-bearing object: its truthy properties, and the three
      metadata lists `_cqrs_handleCommands`, `_cqrs_applyEvents` and
      `_cqrs_subscribeToEvents` (`None` while the property is unset). */
  datatype HandlerObject = HandlerObject(
    methods: map<string, Property>,
    handleCommands: Option<seq<string>>,
    applyEvents: Option<seq<string>>,
    subscribeToEvents: Option<seq<string>>)

  /** A fresh object with the given properties and no metadata yet. */
  function Plain(methods: map<string, Property>): HandlerObject
  {
    HandlerObject(methods, None, None, None)
  }

  /** `object[name]`, `None` when missing or falsy. */
  function PropertyOf(methods: map<string, Property>, name: string): Option<Property>
  {
    if name in methods then Some(methods[name]) else None
  }

  /** No event is both applied and subscribed by the object. */
  predicate Disjoint(o: HandlerObject)
  {
    forall n :: n in OrEmpty(o.applyEvents) ==> n !in OrEmpty(o.subscribeToEvents)
  }

  /** The invariant every binding operation keeps: the three lists are
      duplicate-free and applied and subscribed events are disjoint. */
  predicate WellFormed(o: HandlerObject)
  {
    && NoDup(OrEmpty(o.handleCommands))
    && NoDup(OrEmpty(o.applyEvents))
    && NoDup(OrEmpty(o.subscribeToEvents))
    && Disjoint(o)
  }

  // ---------------------------------------------------------------------
  // Commands

  /** The conditions under which `iHandleCommand` accepts a handler. */
  predicate CommandAccepted(c: Catalog, name: string, handler: Option<Property>)
  {
    name in c.commands && handler.Some? && IsGeneratorFunction(handler.value)
  }

  /** `iHandleCommand(name, handler, object)`. The handled-commands list is
      created before any check, so it exists even when the call throws. */
  function IHandleCommand(c: Catalog, name: string, handler: Option<Property>, o: HandlerObject): (r: Completion<HandlerObject>)
    ensures r.state.methods == o.methods
    ensures r.state.applyEvents == o.applyEvents
    ensures r.state.subscribeToEvents == o.subscribeToEvents
    ensures r.state.handleCommands.Some?
    ensures r.Normal? <==> CommandAccepted(c, name, handler)
    ensures name !in c.commands ==> r.Abrupt? && r.error == Unknown
    ensures name in c.commands && handler.None? ==> r.Abrupt? && r.error == MissingHandler
    ensures name in c.commands && handler.Some? && !IsGeneratorFunction(handler.value) ==>
              r.Abrupt? && r.error == BadHandler
    ensures r.Abrupt? ==> r.state.handleCommands == Some(OrEmpty(o.handleCommands))
    ensures OrEmpty(o.handleCommands) <= r.state.handleCommands.value
    ensures r.Normal? ==> forall n :: n in r.state.handleCommands.value <==> n in OrEmpty(o.handleCommands) || n == name
    ensures WellFormed(o) ==> WellFormed(r.state)
  {
    var list := OrEmpty(o.handleCommands);
    var created := o.(handleCommands := Some(list));
    if name !in c.commands then Abrupt(created, Unknown)
    else if handler.None? then Abrupt(created, MissingHandler)
    else if !IsGeneratorFunction(handler.value) then Abrupt(created, BadHandler)
    else Normal(created.(handleCommands := Some(AppendIfAbsent(list, name))))
  }

  /** The length of the longest prefix of `names` whose commands are all
      accepted with the object's own methods as handlers. */
  function AcceptedCommandPrefix(c: Catalog, methods: map<string, Property>, names: seq<string>): (k: nat)
    ensures k <= |names|
    ensures forall i :: 0 <= i < k ==> CommandAccepted(c, names[i], PropertyOf(methods, names[i]))
    ensures k < |names| ==> !CommandAccepted(c, names[k], PropertyOf(methods, names[k]))
  {
    if |names| == 0 then 0
    else if !CommandAccepted(c, names[0], PropertyOf(methods, names[0])) then 0
    else 1 + AcceptedCommandPrefix(c, methods, names[1..])
  }

  /** `iHandleCommands(names, object)`: `iHandleCommand` for each name with
      the object's method of that name, stopping at the first throw; the
      names accepted before it stay recorded. */
  function IHandleCommands(c: Catalog, names: seq<string>, o: HandlerObject): (r: Completion<HandlerObject>)
    ensures r.state.methods == o.methods
    ensures r.state.applyEvents == o.applyEvents
    ensures r.state.subscribeToEvents == o.subscribeToEvents
    ensures |names| == 0 ==> r == Normal(o)
    ensures |names| > 0 ==> r.state.handleCommands.Some?
    ensures r.Normal? <==> AcceptedCommandPrefix(c, o.methods, names) == |names|
    ensures r.Abrupt? ==>
              var k := AcceptedCommandPrefix(c, o.methods, names);
              k < |names| && r.error == IHandleCommand(c, names[k], PropertyOf(o.methods, names[k]), o).error
    ensures forall n :: n in OrEmpty(r.state.handleCommands) <==>
              n in OrEmpty(o.handleCommands) || n in names[..AcceptedCommandPrefix(c, o.methods, names)]
    ensures OrEmpty(o.handleCommands) <= OrEmpty(r.state.handleCommands)
    ensures WellFormed(o) ==> WellFormed(r.state)
    decreases |names|
  {
    if |names| == 0 then Normal(o)
    else
      match IHandleCommand(c, names[0], PropertyOf(o.methods, names[0]), o)
      case Abrupt(o', e) => Abrupt(o', e)
      case Normal(o') =>
        var r := IHandleCommands(c, names[1..], o');
        assert names[..AcceptedCommandPrefix(c, o.methods, names)]
            == [names[0]] + names[1..][..AcceptedCommandPrefix(c, o.methods, names[1..])];
        r
  }

  /** The handled list grows in call order: each accepted name is appended
      in turn unless already listed, which is the first-occurrence
      de-duplication of the old list followed by the accepted prefix. */
  lemma {:induction false} IHandleCommandsOrder(c: Catalog, names: seq<string>, o: HandlerObject)
    ensures NoDup(OrEmpty(o.handleCommands)) ==>
              OrEmpty(IHandleCommands(c, names, o).state.handleCommands)
              == Dedup(OrEmpty(o.handleCommands) + names[..AcceptedCommandPrefix(c, o.methods, names)])
    decreases |names|
  {
    var list := OrEmpty(o.handleCommands);
    if NoDup(list) {
      var k := AcceptedCommandPrefix(c, o.methods, names);
      var r := IHandleCommands(c, names, o);
      if |names| == 0 || !CommandAccepted(c, names[0], PropertyOf(o.methods, names[0])) {
        assert OrEmpty(r.state.handleCommands) == list;
        assert list + names[..k] == list;
        DedupOfDistinct(list);
      } else {
        var o' := IHandleCommand(c, names[0], PropertyOf(o.methods, names[0]), o).state;
        var list' := AppendIfAbsent(list, names[0]);
        assert o'.handleCommands == Some(list');
        assert o'.methods == o.methods;
        assert r == IHandleCommands(c, names[1..], o');
        var k' := AcceptedCommandPrefix(c, o.methods, names[1..]);
        var q := names[1..][..k'];
        IHandleCommandsOrder(c, names[1..], o');
        assert OrEmpty(r.state.handleCommands) == Dedup(list' + q);
        DedupAfterAppend(list, names[0], q);
        assert k == 1 + k';
        PrefixAfterHead(list, names, k');
      }
    }
  }

  /** Appending a name if absent, then extending, de-duplicates like
      extending the list with the name itself. */
  lemma DedupAfterAppend(list: seq<string>, x: string, q: seq<string>)
    requires NoDup(list)
    ensures Dedup(AppendIfAbsent(list, x) + q) == Dedup((list + [x]) + q)
  {
    DedupOfDistinct(list);
    DedupSnoc(list, x);
    DedupOfDistinct(AppendIfAbsent(list, x));
    DedupExtend(AppendIfAbsent(list, x), list + [x], q);
  }

  /** Taking the head of `names` out of an accepted prefix of length
      `k + 1` keeps the concatenation. */
  lemma PrefixAfterHead(list: seq<string>, names: seq<string>, k: nat)
    requires k < |names|
    ensures list + names[..k + 1] == (list + [names[0]]) + names[1..][..k]
  {
    assert names[..k + 1] == [names[0]] + names[1..][..k];
  }

  /** Registering a command handler twice has the effect of registering it once. */
  lemma IHandleCommandIdempotent(c: Catalog, name: string, handler: Option<Property>, o: HandlerObject)
    ensures IHandleCommand(c, name, handler, IHandleCommand(c, name, handler, o).state)
         == IHandleCommand(c, name, handler, o)
  {
  }

  // ---------------------------------------------------------------------
  // Applied events

  /** The conditions under which `iApplyEvent` accepts a handler. */
  predicate ApplyAccepted(c: Catalog, subscribed: seq<string>, name: string, handler: Option<Property>)
  {
    name in c.events && name !in subscribed && handler.Some? && handler.value.Callable?
  }

  /** `iApplyEvent(name, handler, object)`. The applied-events list is
      created before any check. */
  function IApplyEvent(c: Catalog, name: string, handler: Option<Property>, o: HandlerObject): (r: Completion<HandlerObject>)
    ensures r.state.methods == o.methods
    ensures r.state.handleCommands == o.handleCommands
    ensures r.state.subscribeToEvents == o.subscribeToEvents
    ensures r.state.applyEvents.Some?
    ensures r.Normal? <==> ApplyAccepted(c, OrEmpty(o.subscribeToEvents), name, handler)
    ensures name !in c.events ==> r.Abrupt? && r.error == Unknown
    ensures name in c.events && name in OrEmpty(o.subscribeToEvents) ==> r.Abrupt? && r.error == Exclusivity
    ensures name in c.events && name !in OrEmpty(o.subscribeToEvents) && handler.None? ==>
              r.Abrupt? && r.error == MissingHandler
    ensures name in c.events && name !in OrEmpty(o.subscribeToEvents) && handler.Some? && !handler.value.Callable? ==>
              r.Abrupt? && r.error == BadHandler
    ensures r.Abrupt? ==> r.state.applyEvents == Some(OrEmpty(o.applyEvents))
    ensures OrEmpty(o.applyEvents) <= r.state.applyEvents.value
    ensures r.Normal? ==> forall n :: n in r.state.applyEvents.value <==> n in OrEmpty(o.applyEvents) || n == name
    ensures WellFormed(o) ==> WellFormed(r.state)
  {
    var list := OrEmpty(o.applyEvents);
    var created := o.(applyEvents := Some(list));
    if name !in c.events then Abrupt(created, Unknown)
    else if name in OrEmpty(o.subscribeToEvents) then Abrupt(created, Exclusivity)
    else if handler.None? then Abrupt(created, MissingHandler)
    else if !handler.value.Callable? then Abrupt(created, BadHandler)
    else Normal(created.(applyEvents := Some(AppendIfAbsent(list, name))))
  }

  /** The length of the longest prefix of `names` whose events `iApplyEvent`
      accepts with the object's own methods as handlers. */
  function AcceptedApplyPrefix(c: Catalog, subscribed: seq<string>, methods: map<string, Property>, names: seq<string>): (k: nat)
    ensures k <= |names|
    ensures forall i :: 0 <= i < k ==> ApplyAccepted(c, subscribed, names[i], PropertyOf(methods, names[i]))
    ensures k < |names| ==> !ApplyAccepted(c, subscribed, names[k], PropertyOf(methods, names[k]))
  {
    if |names| == 0 then 0
    else if !ApplyAccepted(c, subscribed, names[0], PropertyOf(methods, names[0])) then 0
    else 1 + AcceptedApplyPrefix(c, subscribed, methods, names[1..])
  }

  /** `iApplyEvents(names, object)`: fail-fast and non-atomic like
      `iHandleCommands`. */
  function IApplyEvents(c: Catalog, names: seq<string>, o: HandlerObject): (r: Completion<HandlerObject>)
    ensures r.state.methods == o.methods
    ensures r.state.handleCommands == o.handleCommands
    ensures r.state.subscribeToEvents == o.subscribeToEvents
    ensures |names| == 0 ==> r == Normal(o)
    ensures |names| > 0 ==> r.state.applyEvents.Some?
    ensures r.Normal? <==> AcceptedApplyPrefix(c, OrEmpty(o.subscribeToEvents), o.methods, names) == |names|
    ensures r.Abrupt? ==>
              var k := AcceptedApplyPrefix(c, OrEmpty(o.subscribeToEvents), o.methods, names);
              k < |names| && r.error == IApplyEvent(c, names[k], PropertyOf(o.methods, names[k]), o).error
    ensures forall n :: n in OrEmpty(r.state.applyEvents) <==>
              n in OrEmpty(o.applyEvents) || n in names[..AcceptedApplyPrefix(c, OrEmpty(o.subscribeToEvents), o.methods, names)]
    ensures OrEmpty(o.applyEvents) <= OrEmpty(r.state.applyEvents)
    ensures WellFormed(o) ==> WellFormed(r.state)
    decreases |names|
  {
    if |names| == 0 then Normal(o)
    else
      match IApplyEvent(c, names[0], PropertyOf(o.methods, names[0]), o)
      case Abrupt(o', e) => Abrupt(o', e)
      case Normal(o') =>
        var subscribed := OrEmpty(o.subscribeToEvents);
        assert OrEmpty(o'.subscribeToEvents) == subscribed;
        var r := IApplyEvents(c, names[1..], o');
        var k := AcceptedApplyPrefix(c, subscribed, o.methods, names[1..]);
        assert AcceptedApplyPrefix(c, subscribed, o.methods, names) == k + 1;
        assert names[..k + 1] == [names[0]] + names[1..][..k];
        r
  }

  /** Applying an event twice has the effect of applying it once. */
  lemma IApplyEventIdempotent(c: Catalog, name: string, handler: Option<Property>, o: HandlerObject)
    ensures IApplyEvent(c, name, handler, IApplyEvent(c, name, handler, o).state)
         == IApplyEvent(c, name, handler, o)
  {
  }

  // ---------------------------------------------------------------------
  // Subscribed events

  /** `iSubscribeTo` takes one name or an array of names. */
  datatype EventNames = One(name: string) | Many(names: seq<string>)

  /** `if (!(events instanceof Array)) events = [events]` */
  function AsList(e: EventNames): seq<string>
  {
    match e
    case One(n) => [n]
    case Many(ns) => ns
  }

  /** The throw `iSubscribeTo` raises for a name it has not seen yet in this
      call, if any: undefined event, event already applied by the object,
      no handler method, or a handler whose `length` differs from the
      event's. */
  function SubscribeRefusal(c: Catalog, applied: seq<string>, methods: map<string, Property>, name: string): Option<Error>
  {
    if name !in c.events then Some(Unknown)
    else if name in applied then Some(Exclusivity)
    else if name !in methods then Some(MissingHandler)
    else if LengthOf(methods[name]) != Some(Arity(c.events[name])) then Some(ArityMismatch)
    else None
  }

  /** Reference de-duplication: the distinct names of `s` in order of first
      occurrence. */
  function Dedup(s: seq<string>): (r: seq<string>)
    ensures NoDup(r)
    ensures forall x :: x in r <==> x in s
  {
    if |s| == 0 then []
    else
      var n := |s| - 1;
      assert s == s[..n] + [s[n]];
      AppendIfAbsent(Dedup(s[..n]), s[n])
  }

  /** A duplicate-free list is its own de-duplication. */
  lemma {:induction false} DedupOfDistinct(s: seq<string>)
    requires NoDup(s)
    ensures Dedup(s) == s
    decreases |s|
  {
    if |s| > 0 {
      var n := |s| - 1;
      var p := s[..n];
      assert NoDup(p) by {
        forall i, j | 0 <= i < j < |p| ensures p[i] != p[j] {
          assert p[i] == s[i] && p[j] == s[j];
        }
      }
      DedupOfDistinct(p);
      assert s[n] !in p by {
        forall i | 0 <= i < |p| ensures p[i] != s[n] {
          assert p[i] == s[i];
        }
      }
      assert Dedup(s) == AppendIfAbsent(Dedup(p), s[n]);
      assert p + [s[n]] == s;
    }
  }

  /** Lists with the same de-duplication keep it when extended alike. */
  lemma {:induction false} DedupExtend(a: seq<string>, b: seq<string>, q: seq<string>)
    requires Dedup(a) == Dedup(b)
    ensures Dedup(a + q) == Dedup(b + q)
    decreases |q|
  {
    if |q| == 0 {
      assert a + q == a && b + q == b;
    } else {
      var n := |q| - 1;
      DedupExtend(a, b, q[..n]);
      DedupSnoc(a + q[..n], q[n]);
      DedupSnoc(b + q[..n], q[n]);
      SplitLast(a, q);
      SplitLast(b, q);
    }
  }

  /** Splitting the last name off the extension keeps the concatenation. */
  lemma SplitLast(a: seq<string>, q: seq<string>)
    requires |q| > 0
    ensures a + q == (a + q[..|q| - 1]) + [q[|q| - 1]]
  {
    assert q == q[..|q| - 1] + [q[|q| - 1]];
  }

  /** The first position of `x` in `s`. */
  function FirstIndexOf(s: seq<string>, x: string): (r: nat)
    requires x in s
    ensures r < |s| && s[r] == x
    ensures forall j :: 0 <= j < r ==> s[j] != x
  {
    if s[0] == x then 0 else 1 + FirstIndexOf(s[1..], x)
  }

  /** Extending a list leaves the first positions of its names alone. */
  lemma FirstIndexOfSnoc(p: seq<string>, x: string, y: string)
    requires y in p + [x]
    ensures y in p ==> FirstIndexOf(p + [x], y) == FirstIndexOf(p, y)
    ensures y !in p ==> FirstIndexOf(p + [x], y) == |p|
  {
    if y in p {
      var k' := FirstIndexOf(p, y);
      assert (p + [x])[k'] == y;
    }
  }

  /** `Dedup` lists names in the order of their first occurrence. */
  lemma {:induction false} DedupFirstOccurrenceOrder(s: seq<string>)
    ensures forall i, j :: 0 <= i < j < |Dedup(s)| ==>
              FirstIndexOf(s, Dedup(s)[i]) < FirstIndexOf(s, Dedup(s)[j])
    decreases |s|
  {
    if |s| > 0 {
      var n := |s| - 1;
      var p := s[..n];
      var x := s[n];
      assert s == p + [x];
      DedupFirstOccurrenceOrder(p);
      var d := Dedup(p);
      var r := Dedup(s);
      assert r == AppendIfAbsent(d, x);
      forall i, j | 0 <= i < j < |r|
        ensures FirstIndexOf(s, r[i]) < FirstIndexOf(s, r[j])
      {
        FirstIndexOfSnoc(p, x, r[i]);
        FirstIndexOfSnoc(p, x, r[j]);
        if j < |d| {
          assert r[i] == d[i] && r[j] == d[j];
        } else {
          assert r[i] == d[i] && r[i] in p;
          assert r[j] == x && x !in d;
        }
      }
    }
  }

  /** The loop of `iSubscribeTo`: `distinct` collects the names checked so
      far; a name already in it is skipped without being checked again. */
  function SubscribeEach(c: Catalog, applied: seq<string>, methods: map<string, Property>,
                         names: seq<string>, distinct: seq<string>): (r: Result<seq<string>>)
    ensures r.Success? <==>
              forall i :: 0 <= i < |names| ==> names[i] in distinct || SubscribeRefusal(c, applied, methods, names[i]).None?
    ensures r.Success? ==> forall n :: n in r.value ==> n in distinct || SubscribeRefusal(c, applied, methods, n).None?
    decreases |names|
  {
    if |names| == 0 then Success(distinct)
    else
      var n := names[0];
      if n in distinct then SubscribeEach(c, applied, methods, names[1..], distinct)
      else
        match SubscribeRefusal(c, applied, methods, n)
        case Some(e) => Failure(e)
        case None =>
          var r := SubscribeEach(c, applied, methods, names[1..], distinct + [n]);
          assert forall i :: 0 < i < |names| ==> names[i] == names[1..][i - 1];
          r
  }

  /** A throw of the loop is the refusal of the first name that is neither
      collected already nor passes the checks. */
  lemma {:induction false} SubscribeEachFailure(c: Catalog, applied: seq<string>, methods: map<string, Property>,
                                                names: seq<string>, distinct: seq<string>)
    requires SubscribeEach(c, applied, methods, names, distinct).Failure?
    ensures exists i :: 0 <= i < |names| && names[i] !in distinct
              && SubscribeRefusal(c, applied, methods, names[i]) == Some(SubscribeEach(c, applied, methods, names, distinct).error)
              && forall j :: 0 <= j < i ==> names[j] in distinct || SubscribeRefusal(c, applied, methods, names[j]).None?
    decreases |names|
  {
    var r := SubscribeEach(c, applied, methods, names, distinct);
    var n := names[0];
    if n in distinct || SubscribeRefusal(c, applied, methods, n).None? {
      var distinct' := if n in distinct then distinct else distinct + [n];
      assert SubscribeEach(c, applied, methods, names[1..], distinct') == r;
      SubscribeEachFailure(c, applied, methods, names[1..], distinct');
      var i :| 0 <= i < |names[1..]| && names[1..][i] !in distinct'
              && SubscribeRefusal(c, applied, methods, names[1..][i]) == Some(r.error)
              && forall j :: 0 <= j < i ==> names[1..][j] in distinct' || SubscribeRefusal(c, applied, methods, names[1..][j]).None?;
      assert names[i + 1] == names[1..][i];
      forall j | 0 <= j < i + 1
        ensures names[j] in distinct || SubscribeRefusal(c, applied, methods, names[j]).None?
      {
        if j > 0 {
          assert names[j] == names[1..][j - 1];
        }
      }
    } else {
      assert SubscribeRefusal(c, applied, methods, names[0]) == Some(r.error);
    }
  }

  /** One successful step of the loop extends `distinct` as `indexOf`/`push` does. */
  lemma SubscribeEachStep(c: Catalog, applied: seq<string>, methods: map<string, Property>,
                          names: seq<string>, distinct: seq<string>)
    requires |names| > 0
    requires SubscribeEach(c, applied, methods, names, distinct).Success?
    ensures SubscribeEach(c, applied, methods, names[1..], AppendIfAbsent(distinct, names[0]))
         == SubscribeEach(c, applied, methods, names, distinct)
  {
  }

  /** Run from the de-duplication of a prefix, the loop completes the
      de-duplication of the whole list. */
  lemma {:induction false} SubscribeEachDedups(c: Catalog, applied: seq<string>, methods: map<string, Property>,
                                               done: seq<string>, rest: seq<string>)
    requires SubscribeEach(c, applied, methods, rest, Dedup(done)).Success?
    ensures SubscribeEach(c, applied, methods, rest, Dedup(done)).value == Dedup(done + rest)
    decreases |rest|
  {
    if |rest| == 0 {
      assert done + rest == done;
    } else {
      var done' := done + [rest[0]];
      DedupSnoc(done, rest[0]);
      SubscribeEachStep(c, applied, methods, rest, Dedup(done));
      SubscribeEachDedups(c, applied, methods, done', rest[1..]);
      ShiftFirst(done, rest);
    }
  }

  /** Moving the head of `rest` onto `done` keeps the concatenation. */
  lemma ShiftFirst(done: seq<string>, rest: seq<string>)
    requires |rest| > 0
    ensures (done + [rest[0]]) + rest[1..] == done + rest
  {
    assert rest == [rest[0]] + rest[1..];
  }

  /** De-duplicating one more name appends it if it is new. */
  lemma DedupSnoc(s: seq<string>, x: string)
    ensures Dedup(s + [x]) == AppendIfAbsent(Dedup(s), x)
  {
    assert (s + [x])[..|s|] == s;
  }

  /** `iSubscribeTo(events, object)`: checks every distinct name and, only
      if all pass, REPLACES the subscribed list with the distinct names in
      first-occurrence order; a throw leaves the object unchanged. */
  function ISubscribeTo(c: Catalog, events: EventNames, o: HandlerObject): (r: Result<HandlerObject>)
    ensures r.Success? <==>
              forall i :: 0 <= i < |AsList(events)| ==>
                SubscribeRefusal(c, OrEmpty(o.applyEvents), o.methods, AsList(events)[i]).None?
    ensures r.Success? ==> r.value == o.(subscribeToEvents := Some(Dedup(AsList(events))))
    ensures r.Failure? ==>
              exists i :: 0 <= i < |AsList(events)|
                       && SubscribeRefusal(c, OrEmpty(o.applyEvents), o.methods, AsList(events)[i]) == Some(r.error)
                       && forall j :: 0 <= j < i ==> SubscribeRefusal(c, OrEmpty(o.applyEvents), o.methods, AsList(events)[j]).None?
    ensures r.Success? && WellFormed(o) ==> WellFormed(r.value)
  {
    var applied := OrEmpty(o.applyEvents);
    match SubscribeEach(c, applied, o.methods, AsList(events), [])
    case Failure(e) =>
      SubscribeEachFailure(c, applied, o.methods, AsList(events), []);
      Failure(e)
    case Success(distinct) =>
      SubscribeEachDedups(c, applied, o.methods, [], AsList(events));
      assert [] + AsList(events) == AsList(events);
      Success(o.(subscribeToEvents := Some(distinct)))
  }

  /** Subscribing twice with the same names has the effect of subscribing once. */
  lemma ISubscribeToIdempotent(c: Catalog, events: EventNames, o: HandlerObject)
    requires ISubscribeTo(c, events, o).Success?
    ensures ISubscribeTo(c, events, ISubscribeTo(c, events, o).value) == ISubscribeTo(c, events, o)
  {
  }

  /** Once an object applies an event, subscribing it to that event fails. */
  lemma ApplyExcludesSubscribe(c: Catalog, name: string, handler: Option<Property>, o: HandlerObject)
    requires IApplyEvent(c, name, handler, o).Normal?
    ensures ISubscribeTo(c, One(name), IApplyEvent(c, name, handler, o).state) == Failure(Exclusivity)
  {
  }

  /** Once an object subscribes to an event, applying that event fails. */
  lemma SubscribeExcludesApply(c: Catalog, events: EventNames, name: string, handler: Option<Property>, o: HandlerObject)
    requires ISubscribeTo(c, events, o).Success?
    requires name in AsList(events)
    ensures IApplyEvent(c, name, handler, ISubscribeTo(c, events, o).value).Abrupt?
    ensures IApplyEvent(c, name, handler, ISubscribeTo(c, events, o).value).error == Exclusivity
  {
    var i :| 0 <= i < |AsList(events)| && AsList(events)[i] == name;
    assert SubscribeRefusal(c, OrEmpty(o.applyEvents), o.methods, AsList(events)[i]).None?;
  }
}

=== FILE: cqrs.dfy ===
/** The process-wide registry: both namespaces and the dispatcher list in
    one state record, and the end-to-end use of the three parts together. */
module Cqrs {
  import opened Base
  import opened Definitions
  import opened Binding
  import opened Dispatch

  /** The registry state: the catalog (shared through the prototype) and the
      instance's `_messageDispatchers`. */
  datatype State = State(catalog: Catalog, dispatchers: seq<Dispatcher>)

  /** `new cqrs()`: empty namespaces and no dispatchers. */
  const Init := State(EmptyCatalog, [])

  /** The state invariant: dispatcher names are pairwise distinct. */
  predicate Valid(s: State)
  {
    DistinctNames(s.dispatchers)
  }

  /** `cqrs.createMessageDispatcher(name)` on the whole state. */
  function CreateDispatcher(s: State, name: string): (r: Result<State>)
    ensures r.Success? ==> r.value.catalog == s.catalog
    ensures r.Success? ==> GetMessageDispatcher(r.value.dispatchers, name) == Success(Dispatcher(name, map[]))
    ensures Valid(s) && r.Success? ==> Valid(r.value)
    ensures r.Failure? <==> GetMessageDispatcher(s.dispatchers, name).Success?
    ensures r.Failure? ==> r.error == DuplicateDispatcher
    ensures r.Success? ==> CreateMessageDispatcher(s.dispatchers, name) == Success(r.value.dispatchers)
  {
    match CreateMessageDispatcher(s.dispatchers, name)
    case Failure(e) => Failure(e)
    case Success(ds) =>
      CreateThenGet(s.dispatchers, name);
      Success(s.(dispatchers := ds))
  }

  /** The end-to-end scenario, from the initial state: define event `Created(id)` and command
      `Create(id)`, let an object handle `Create` with a generator method,
      scan it into dispatcher `d`, and send `new Create(7)`: the object's
      method is called once with an instance whose `id` is 7. */
  lemma EndToEnd(gen: Fn)
    requires gen.isGenerator
    ensures
      var c1 := DefineEvent(Init.catalog, FieldList("Created", ["id"]));
      && c1.Success?
      && var c2 := DefineCommand(c1.value, FieldList("Create", ["id"]));
      && c2.Success?
      && var a := IHandleCommands(c2.value, ["Create"], Plain(map["Create" := Callable(gen)]));
      && a.Normal?
      && var s := CreateDispatcher(Init.(catalog := c2.value), "d");
      && s.Success?
      && var d := GetMessageDispatcher(s.value.dispatchers, "d");
      && d.Success?
      && var scanned := Scan(d.value, a.state);
      && scanned.Normal?
      && var inst := New(c2.value.commands["Create"], [Data(7)]);
      && inst.fields["id"] == Arg(Data(7))
      && SendCommand(scanned.state, inst) == Success(Some(Invocation(gen, inst)))
  {
    var c1 := DefineEvent(Init.catalog, FieldList("Created", ["id"])).value;
    var c2 := DefineCommand(c1, FieldList("Create", ["id"])).value;
    var o := Plain(map["Create" := Callable(gen)]);
    var a := IHandleCommands(c2, ["Create"], o);
    var handled := o.(handleCommands := Some(["Create"]));
    assert "Create" in c2.commands;
    assert PropertyOf(o.methods, "Create") == Some(Callable(gen));
    assert AppendIfAbsent([], "Create") == ["Create"];
    assert IHandleCommand(c2, "Create", PropertyOf(o.methods, "Create"), o) == Normal(handled);
    assert ["Create"][1..] == [];
    assert a == IHandleCommands(c2, [], handled);
    assert a.state.handleCommands == Some(["Create"]);
    var d := Dispatcher("d", map[]);
    var inst := New(c2.commands["Create"], [Data(7)]);
    assert inst.typeName == "Create";
    FieldListFactory(c1.commands, Command, "Create", ["id"], [Data(7)]);
    ScanThenSend(d, a.state, inst, gen);
  }
}

=== FILE: definitions.dfy ===
/** The two definition registries (`defineCommand`, `defineEvent`) and the
    record factories synthesized from a field list. */
module Definitions {
  import opened Base

  /** A primitive argument value; `Undefined` is what a missing positional
      argument binds to. */
  datatype Value = Undefined | Data(payload: int)

  /** What an instance field holds: an argument, or the instance itself
      (the synthesized body starts with `var self=this`, so a field named
      `self` is written with the instance rather than with its argument). */
  datatype FieldValue = Arg(value: Value) | Itself

  /** The field name the body's `var self=this` shadows. */
  const SelfName := "self"

  /** The field name whose write goes to the prototype setter: assigning a
      primitive to `__proto__` is ignored and creates no own field. */
  const ProtoName := "__proto__"

  /** The argument shapes `defineCommand` and `defineEvent` accept. */
  datatype DefineArgs =
    | Constructor(f: Fn)                            // define(fn): keyed by `fn.name`
    | NamedFactory(name: string, f: Fn)             // define(name, fn, ...): fn stored as-is
    | FieldList(name: string, fields: seq<string>)  // define(name, f1, ..., fn)

  /** Which namespace a definition goes to. */
  datatype Kind = Command | Event

  /** A stored definition: either a user function, or the factory built from
      a field list. `ctorName` is the `name` of the synthesized function:
      the command's name for commands, empty for the anonymous event one. */
  datatype Definition =
    | UserFunction(fn: Fn)
    | Synthesized(ctorName: string, fields: seq<string>)

  /** A message instance: the `constructor.name` it was built by and its own
      fields. */
  datatype Instance = Instance(typeName: string, fields: map<string, FieldValue>)

  /** The two namespaces. */
  datatype Catalog = Catalog(commands: map<string, Definition>, events: map<string, Definition>)

  const EmptyCatalog := Catalog(map[], map[])

  /** `definition.length`: the declared parameter count. */
  function Arity(d: Definition): nat
  {
    match d
    case UserFunction(f) => f.length
    case Synthesized(_, fields) => |fields|
  }

  /** The name a definition is registered under. */
  function KeyOf(args: DefineArgs): string
  {
    match args
    case Constructor(f) => f.name
    case NamedFactory(name, _) => name
    case FieldList(name, _) => name
  }

  /** The definition that gets stored for the given arguments. */
  function MakeDefinition(kind: Kind, args: DefineArgs): Definition
  {
    match args
    case Constructor(f) => UserFunction(f)
    case NamedFactory(_, f) => UserFunction(f)
    case FieldList(name, fields) =>
      Synthesized(if kind == Command then name else "", fields)
  }

  /** One namespace's half of `defineCommand` / `defineEvent`: refuses a
      name that is already defined, otherwise adds exactly that name. */
  function Define(ns: map<string, Definition>, kind: Kind, args: DefineArgs): (r: Result<map<string, Definition>>)
    ensures r.Failure? <==> KeyOf(args) in ns
    ensures r.Failure? ==> r.error == Duplicate
    ensures r.Success? ==> r.value.Keys == ns.Keys + {KeyOf(args)}
    ensures r.Success? ==> forall k :: k in ns ==> r.value[k] == ns[k]
    ensures r.Success? && args.FieldList? ==> Arity(r.value[args.name]) == |args.fields|
    ensures r.Success? && !args.FieldList? ==> r.value[KeyOf(args)] == UserFunction(args.f)
  {
    var key := KeyOf(args);
    if key in ns then Failure(Duplicate)
    else Success(ns[key := MakeDefinition(kind, args)])
  }

  /** `defineCommand`: only the command namespace can change. */
  function DefineCommand(c: Catalog, args: DefineArgs): (r: Result<Catalog>)
    ensures r.Failure? <==> KeyOf(args) in c.commands
    ensures r.Failure? ==> r.error == Duplicate
    ensures r.Success? ==> r.value.events == c.events
    ensures r.Success? ==> r.value.commands.Keys == c.commands.Keys + {KeyOf(args)}
    ensures r.Success? ==> Define(c.commands, Command, args) == Success(r.value.commands)
  {
    match Define(c.commands, Command, args)
    case Failure(e) => Failure(e)
    case Success(m) => Success(c.(commands := m))
  }

  /** `defineEvent`: only the event namespace can change. */
  function DefineEvent(c: Catalog, args: DefineArgs): (r: Result<Catalog>)
    ensures r.Failure? <==> KeyOf(args) in c.events
    ensures r.Failure? ==> r.error == Duplicate
    ensures r.Success? ==> r.value.commands == c.commands
    ensures r.Success? ==> r.value.events.Keys == c.events.Keys + {KeyOf(args)}
    ensures r.Success? ==> Define(c.events, Event, args) == Success(r.value.events)
  {
    match Define(c.events, Event, args)
    case Failure(e) => Failure(e)
    case Success(m) => Success(c.(events := m))
  }

  /** The namespaces are independent: a name taken in one does not stop it
      being defined in the other. */
  lemma NamespacesIndependent(c: Catalog, name: string, fields: seq<string>)
    requires name !in c.events
    requires DefineCommand(c, FieldList(name, fields)).Success?
    ensures DefineEvent(DefineCommand(c, FieldList(name, fields)).value, FieldList(name, fields)).Success?
    ensures name in DefineEvent(DefineCommand(c, FieldList(name, fields)).value, FieldList(name, fields)).value.commands
  {
  }

  /** A second definition under the same name in the same namespace fails. */
  lemma RedefinitionFails(c: Catalog, first: DefineArgs, second: DefineArgs)
    requires KeyOf(first) == KeyOf(second)
    ensures DefineCommand(c, first).Success? ==>
              DefineCommand(DefineCommand(c, first).value, second) == Failure(Duplicate)
    ensures DefineEvent(c, first).Success? ==>
              DefineEvent(DefineEvent(c, first).value, second) == Failure(Duplicate)
  {
  }

  /** The argument bound to the i-th parameter: `undefined` past the end. */
  function ArgAt(args: seq<Value>, i: nat): Value
  {
    if i < |args| then args[i] else Undefined
  }

  /** The last position of `x` in `s`. */
  function LastIndexOf(s: seq<string>, x: string): (r: nat)
    requires x in s
    ensures r < |s| && s[r] == x
    ensures forall j :: r < j < |s| ==> s[j] != x
  {
    var n := |s| - 1;
    if s[n] == x then n
    else
      assert x in s[..n] by {
        var k :| 0 <= k < |s| && s[k] == x;
        assert k < n && s[..n][k] == x;
      }
      LastIndexOf(s[..n], x)
  }

  /** What the write `self.f=f;` stores for the argument `v` bound to `f`. */
  function Written(f: string, v: Value): FieldValue
  {
    if f == SelfName then Itself else Arg(v)
  }

  /** The own fields the synthesized body `self.f=f; ...` leaves, writing in
      order. Parameters are bound first, so a repeated field name holds the
      argument at its last position, which is what the in-order writes
      leave; a write to `__proto__` leaves no own field. */
  function Assign(fields: seq<string>, args: seq<Value>): (r: map<string, FieldValue>)
    ensures r.Keys == set f | f in fields && f != ProtoName
  {
    if |fields| == 0 then map[]
    else
      var n := |fields| - 1;
      assert forall f :: f in fields <==> f in fields[..n] || f == fields[n] by {
        assert fields == fields[..n] + [fields[n]];
      }
      var before := Assign(fields[..n], args);
      if fields[n] == ProtoName then before
      else before[fields[n] := Written(fields[n], ArgAt(args, n))]
  }

  /** `new F(a1, ..., an)` for a synthesized factory `F`. */
  function New(d: Definition, args: seq<Value>): (r: Instance)
    requires d.Synthesized?
    ensures r.typeName == d.ctorName
    ensures r.fields.Keys == set f | f in d.fields && f != ProtoName
  {
    Instance(d.ctorName, Assign(d.fields, args))
  }

  /** Each field other than `__proto__` holds the argument at its last
      position in the field list, except `self`, which holds the instance. */
  lemma {:induction false} AssignLast(fields: seq<string>, args: seq<Value>, f: string)
    requires f in fields
    ensures f != ProtoName ==>
              Assign(fields, args)[f] == (if f == SelfName then Itself else Arg(ArgAt(args, LastIndexOf(fields, f))))
    decreases |fields|
  {
    var n := |fields| - 1;
    if fields[n] != f {
      assert f in fields[..n] by {
        var k :| 0 <= k < |fields| && fields[k] == f;
        assert k < n && fields[..n][k] == f;
      }
      AssignLast(fields[..n], args, f);
    }
  }

  /** With distinct field names, field i holds argument i (the instance
      itself for `self`; no own field for `__proto__`). */
  lemma AssignPositional(fields: seq<string>, args: seq<Value>, i: nat)
    requires NoDup(fields)
    requires i < |fields|
    ensures fields[i] != ProtoName ==> Assign(fields, args)[fields[i]] == Written(fields[i], ArgAt(args, i))
  {
    AssignLast(fields, args, fields[i]);
  }

  /** A field-list definition yields a factory of arity n whose instances,
      given n arguments, carry field i = argument i (the instance itself for
      `self`, nothing for `__proto__`) and are tagged with the command's name
      (or the empty name for an event). */
  lemma FieldListFactory(ns: map<string, Definition>, kind: Kind, name: string,
                         fields: seq<string>, args: seq<Value>)
    requires name !in ns
    requires NoDup(fields)
    requires |args| == |fields|
    ensures Define(ns, kind, FieldList(name, fields)).Success?
    ensures Arity(Define(ns, kind, FieldList(name, fields)).value[name]) == |fields|
    ensures Define(ns, kind, FieldList(name, fields)).value[name].Synthesized?
    ensures
      var inst := New(Define(ns, kind, FieldList(name, fields)).value[name], args);
      && inst.typeName == (if kind == Command then name else "")
      && inst.fields.Keys == set f | f in fields && f != ProtoName
      && forall i :: 0 <= i < |fields| && fields[i] != ProtoName ==>
           inst.fields[fields[i]] == (if fields[i] == SelfName then Itself else Arg(args[i]))
  {
    var d := Define(ns, kind, FieldList(name, fields)).value[name];
    forall i | 0 <= i < |fields| && fields[i] != ProtoName
      ensures New(d, args).fields[fields[i]] == (if fields[i] == SelfName then Itself else Arg(args[i]))
    {
      AssignPositional(fields, args, i);
    }
  }
}

=== FILE: dispatch.dfy ===
/** Named message dispatchers: creation and lookup in the registry's list,
    `scan` to bind an object's handled commands, and `sendCommand` to route
    an instance by its type name. */
module Dispatch {
  import opened Base
  import opened Definitions
  import opened Binding

  /** A dispatcher: its name and its command-name -> handler map, holding
      only truthy handlers. */
  datatype Dispatcher = Dispatcher(name: string, commandHandlers: map<string, Property>)

  /** A handler call made by `sendCommand`; running it is the application's job. */
  datatype Invocation = Invocation(handler: Fn, command: Instance)

  /** No two dispatchers of the registry share a name. */
  predicate DistinctNames(ds: seq<Dispatcher>)
  {
    forall i, j :: 0 <= i < j < |ds| ==> ds[i].name != ds[j].name
  }

  /** The linear search shared by `createMessageDispatcher` and
      `getMessageDispatcher`: the first position holding `name`. */
  function IndexOf(ds: seq<Dispatcher>, name: string): (r: Option<nat>)
    ensures r.None? <==> forall j :: 0 <= j < |ds| ==> ds[j].name != name
    ensures r.Some? ==> r.value < |ds| && ds[r.value].name == name
    ensures r.Some? ==> forall j :: 0 <= j < r.value ==> ds[j].name != name
  {
    if |ds| == 0 then None
    else if ds[0].name == name then Some(0)
    else
      match IndexOf(ds[1..], name)
      case None => None
      case Some(i) => Some(i + 1)
  }

  /** `createMessageDispatcher(name)`: refuses a taken name, otherwise
      appends a new dispatcher with no handlers (which it also returns). */
  function CreateMessageDispatcher(ds: seq<Dispatcher>, name: string): (r: Result<seq<Dispatcher>>)
    ensures r.Failure? <==> exists j :: 0 <= j < |ds| && ds[j].name == name
    ensures r.Failure? ==> r.error == DuplicateDispatcher
    ensures r.Success? ==> |r.value| == |ds| + 1 && r.value[..|ds|] == ds
    ensures r.Success? ==> r.value[|ds|] == Dispatcher(name, map[])
    ensures r.Success? && DistinctNames(ds) ==> DistinctNames(r.value)
  {
    match IndexOf(ds, name)
    case Some(_) => Failure(DuplicateDispatcher)
    case None => Success(ds + [Dispatcher(name, map[])])
  }

  /** `getMessageDispatcher(name)`: the dispatcher of that name, if any. */
  function GetMessageDispatcher(ds: seq<Dispatcher>, name: string): (r: Result<Dispatcher>)
    ensures r.Failure? <==> forall j :: 0 <= j < |ds| ==> ds[j].name != name
    ensures r.Failure? ==> r.error == NotFound
    ensures r.Success? ==> r.value in ds && r.value.name == name
    ensures r.Success? && DistinctNames(ds) ==> forall j :: 0 <= j < |ds| && ds[j].name == name ==> ds[j] == r.value
  {
    match IndexOf(ds, name)
    case None => Failure(NotFound)
    case Some(i) => Success(ds[i])
  }

  /** A dispatcher just created is found by its name, with no handlers. */
  lemma CreateThenGet(ds: seq<Dispatcher>, name: string)
    requires CreateMessageDispatcher(ds, name).Success?
    ensures GetMessageDispatcher(CreateMessageDispatcher(ds, name).value, name) == Success(Dispatcher(name, map[]))
  {
    var ds' := CreateMessageDispatcher(ds, name).value;
    assert forall j :: 0 <= j < |ds| ==> ds'[j] == ds[j];
  }

  /** A second dispatcher of the same name is refused. */
  lemma CreateTwiceFails(ds: seq<Dispatcher>, name: string)
    requires CreateMessageDispatcher(ds, name).Success?
    ensures CreateMessageDispatcher(CreateMessageDispatcher(ds, name).value, name) == Failure(DuplicateDispatcher)
  {
    var ds' := CreateMessageDispatcher(ds, name).value;
    assert ds'[|ds|].name == name;
  }

  // ---------------------------------------------------------------------
  // scan

  /** Reference meaning of binding every name of `names` without checks:
      each listed name the object has a method for maps to that method,
      every other entry is unchanged. */
  function Bound(h: map<string, Property>, methods: map<string, Property>, names: seq<string>): (r: map<string, Property>)
    ensures forall n :: n in r <==> n in h || (n in names && n in methods)
    ensures forall n :: n in names && n in methods ==> r[n] == methods[n]
    ensures forall n :: n in h && !(n in names && n in methods) ==> r[n] == h[n]
  {
    h + map n | n in names && n in methods :: methods[n]
  }

  /** The first position whose name is already bound once everything before
      it has been bound, searching from `i`; `|names|` if there is none. */
  function FirstBoundFrom(h: map<string, Property>, methods: map<string, Property>, names: seq<string>, i: nat): (k: nat)
    requires i <= |names|
    ensures i <= k <= |names|
    ensures forall j :: i <= j < k ==> names[j] !in Bound(h, methods, names[..j])
    ensures k < |names| ==> names[k] in Bound(h, methods, names[..k])
    decreases |names| - i
  {
    if i == |names| then i
    else if names[i] in Bound(h, methods, names[..i]) then i
    else FirstBoundFrom(h, methods, names, i + 1)
  }

  /** The loop of `scan`: bind each name in order to `object[name]`,
      throwing on the first name already bound (an entry is bound when it
      is truthy; binding a missing method stores `undefined`, which leaves
      the name unbound). */
  function BindAll(h: map<string, Property>, methods: map<string, Property>, names: seq<string>): (r: Completion<map<string, Property>>)
    ensures r.Abrupt? ==> r.error == DuplicateHandler
    ensures h.Keys <= r.state.Keys
    decreases |names|
  {
    if |names| == 0 then Normal(h)
    else if names[0] in h then Abrupt(h, DuplicateHandler)
    else
      var h' := if names[0] in methods then h[names[0] := methods[names[0]]] else h;
      BindAll(h', methods, names[1..])
  }

  /** What binding `names` in order must produce when position `k` is the
      first one found already bound (`k == |names|`: none is). */
  function ScanOutcome(h: map<string, Property>, methods: map<string, Property>, names: seq<string>, k: nat): Completion<map<string, Property>>
    requires k <= |names|
  {
    if k == |names| then Normal(Bound(h, methods, names))
    else Abrupt(Bound(h, methods, names[..k]), DuplicateHandler)
  }

  /** Binding one more name extends the reference binding by that name. */
  lemma BoundSnoc(h: map<string, Property>, methods: map<string, Property>, names: seq<string>, i: nat)
    requires i < |names|
    ensures Bound(h, methods, names[..i + 1])
         == (if names[i] in methods then Bound(h, methods, names[..i])[names[i] := methods[names[i]]]
             else Bound(h, methods, names[..i]))
  {
    assert names[..i + 1] == names[..i] + [names[i]];
  }

  /** `scan`'s loop, started after the first `i` names, binds up to the
      first already-bound name and throws there, keeping what it bound. */
  lemma {:induction false} BindAllFrom(h: map<string, Property>, methods: map<string, Property>, names: seq<string>, i: nat)
    requires i <= |names|
    ensures BindAll(Bound(h, methods, names[..i]), methods, names[i..])
         == ScanOutcome(h, methods, names, FirstBoundFrom(h, methods, names, i))
    decreases |names| - i
  {
    if i == |names| {
      assert names[..i] == names;
    } else {
      var x := names[i];
      assert names[i..][0] == x;
      if x !in Bound(h, methods, names[..i]) {
        BoundSnoc(h, methods, names, i);
        assert names[i..][1..] == names[i + 1..];
        BindAllFrom(h, methods, names, i + 1);
      }
    }
  }

  /** `MessageDispatcher.scan(object)`: a no-op without a handled-commands
      list; otherwise binds its names in order up to the first one already
      bound, where it throws, keeping the bindings made before. */
  function Scan(d: Dispatcher, o: HandlerObject): (r: Completion<Dispatcher>)
    ensures r.state.name == d.name
    ensures o.handleCommands.None? ==> r == Normal(d)
    ensures r.Abrupt? ==> r.error == DuplicateHandler
    ensures o.handleCommands.Some? ==>
              var names := o.handleCommands.value;
              var k := FirstBoundFrom(d.commandHandlers, o.methods, names, 0);
              && (r.Normal? <==> k == |names|)
              && r.state.commandHandlers == Bound(d.commandHandlers, o.methods, names[..k])
  {
    match o.handleCommands
    case None => Normal(d)
    case Some(names) =>
      BindAllFrom(d.commandHandlers, o.methods, names, 0);
      assert names[..0] == [] && names[0..] == names && names[..|names|] == names;
      assert Bound(d.commandHandlers, o.methods, []) == d.commandHandlers;
      match BindAll(d.commandHandlers, o.methods, names)
      case Normal(h) => Normal(d.(commandHandlers := h))
      case Abrupt(h, e) => Abrupt(d.(commandHandlers := h), e)
  }

  /** A successful scan binds every handled command the object has a method
      for to that method, and leaves every other entry alone. */
  lemma ScanBindsHandledCommands(d: Dispatcher, o: HandlerObject)
    requires o.handleCommands.Some?
    requires Scan(d, o).Normal?
    ensures forall n :: n in o.handleCommands.value && n in o.methods ==>
              Scan(d, o).state.commandHandlers[n] == o.methods[n]
    ensures forall n :: n !in o.handleCommands.value && n in d.commandHandlers ==>
              Scan(d, o).state.commandHandlers[n] == d.commandHandlers[n]
    ensures forall n :: n in o.handleCommands.value ==> n !in d.commandHandlers
  {
    var names := o.handleCommands.value;
    assert names[..|names|] == names;
    forall n | n in names
      ensures n !in d.commandHandlers
    {
      var j :| 0 <= j < |names| && names[j] == n;
    }
  }

  /** Two objects that handle the same command (with a method for it in the
      first) cannot both be scanned into one dispatcher. */
  lemma SecondScanOfSameCommandFails(d: Dispatcher, o1: HandlerObject, o2: HandlerObject, n: string)
    requires o1.handleCommands.Some? && n in o1.handleCommands.value && n in o1.methods
    requires o2.handleCommands.Some? && n in o2.handleCommands.value
    requires Scan(d, o1).Normal?
    ensures Scan(Scan(d, o1).state, o2).Abrupt?
    ensures Scan(Scan(d, o1).state, o2).error == DuplicateHandler
  {
    ScanBindsHandledCommands(d, o1);
    var d1 := Scan(d, o1).state;
    var names := o2.handleCommands.value;
    var j :| 0 <= j < |names| && names[j] == n;
    assert n in Bound(d1.commandHandlers, o2.methods, names[..j]);
  }

  // ---------------------------------------------------------------------
  // sendCommand

  /** `MessageDispatcher.sendCommand(command)`: calls the handler bound to
      the instance's type name once, does nothing when none is bound, and
      throws when the bound value is not a function. */
  function SendCommand(d: Dispatcher, command: Instance): (r: Result<Option<Invocation>>)
    ensures r == Success(None) <==> command.typeName !in d.commandHandlers
    ensures r.Success? && r.value.Some? ==>
              && command.typeName in d.commandHandlers
              && d.commandHandlers[command.typeName] == Callable(r.value.value.handler)
              && r.value.value.command == command
    ensures r.Failure? <==> command.typeName in d.commandHandlers && d.commandHandlers[command.typeName].NotCallable?
    ensures r.Failure? ==> r.error == NotAFunction
  {
    if command.typeName !in d.commandHandlers then Success(None)
    else
      match d.commandHandlers[command.typeName]
      case Callable(f) => Success(Some(Invocation(f, command)))
      case NotCallable(_) => Failure(NotAFunction)
  }

  /** After a successful scan, a command the object handles reaches the
      object's own method. */
  lemma ScanThenSend(d: Dispatcher, o: HandlerObject, command: Instance, f: Fn)
    requires o.handleCommands.Some? && command.typeName in o.handleCommands.value
    requires command.typeName in o.methods && o.methods[command.typeName] == Callable(f)
    requires Scan(d, o).Normal?
    ensures SendCommand(Scan(d, o).state, command) == Success(Some(Invocation(f, command)))
  {
    ScanBindsHandledCommands(d, o);
  }

  // ---------------------------------------------------------------------
  // Scanning through the registry

  /** `getMessageDispatcher(name).scan(object)` on the registry's list: the
      dispatcher is updated in place, in the normal and the throwing case. */
  function ScanNamed(ds: seq<Dispatcher>, name: string, o: HandlerObject): (r: Completion<seq<Dispatcher>>)
    ensures |r.state| == |ds|
    ensures forall j :: 0 <= j < |ds| ==> r.state[j].name == ds[j].name
    ensures DistinctNames(ds) ==> DistinctNames(r.state)
    ensures (forall j :: 0 <= j < |ds| ==> ds[j].name != name) ==> r == Abrupt(ds, NotFound)
    ensures IndexOf(ds, name).Some? ==>
              var i := IndexOf(ds, name).value;
              && r.state == ds[i := Scan(ds[i], o).state]
              && (r.Normal? <==> Scan(ds[i], o).Normal?)
              && (r.Abrupt? ==> r.error == DuplicateHandler)
  {
    match IndexOf(ds, name)
    case None => Abrupt(ds, NotFound)
    case Some(i) =>
      match Scan(ds[i], o)
      case Normal(d') => Normal(ds[i := d'])
      case Abrupt(d', e) => Abrupt(ds[i := d'], e)
  }
}
